=== FILE: README.md ===
# Mario Tasks: a Dafny model of the to-do client's state logic

Mario Tasks is a React to-do client with a retro-game theme. Tasks live in a
hosted store. The client turns the task list into game state: a score, a coin
count and a hero sprite state (`running`, `fighting`, `victory`,
`mushroom-spawn`). It also has a Pomodoro countdown, a badge panel, a HUD and a
folder panel. This project models the logic under the presentation as pure
functions over immutable records and proves properties of them.

| file | module | models |
|---|---|---|
| `optional.dfy` | `Optional` | `null`/missing values (`Option`) |
| `text.dfy` | `Text` | ASCII `trim`, `toUpperCase`, non-negative `toString`, `padStart` with one pad character, zero-padded counters |
| `sagas.dfy` | `Sagas` | the five saga keys used by the timer and badge tables |
| `game.dfy` | `Game` | `src/App.jsx`: fetch reconciliation, the fight timer, add/toggle/delete, theme/world/give-up, screen selection |
| `pomodoro.dfy` | `Pomodoro` | `src/components/PomodoroTimer.jsx` |
| `badges.dfy` | `Badges` | `src/components/BadgeDisplay.jsx` |
| `hud.dfy` | `Hud` | `src/components/HUD.jsx` |
| `folders.dfy` | `Folders` | `src/components/FolderList.jsx` |

How the asynchronous parts are modelled:
- A finished fetch is the event `Fetched(Some(list))`. A store error is `Fetched(None)` and changes nothing.
- Each store mutation is returned as a `Request` (`Insert`, `Update`, `Remove`).
- `addTask` sends its insert and then awaits it before clearing the input. The resumption is the event `InsertSettled`, and `pendingInserts` counts the calls still waiting.
- The 3000 ms fight timer is driven by `TimePassed(ms)` events. `fightElapsed` counts the milliseconds since the hero entered `Fighting`.
- React skips a state update when the new value equals the old one. So `SetHero` with the current state does nothing, and a fetch that keeps the hero `Fighting` does not restart the timer.
- The timer's one-second interval is the `Tick` event. The zero-delay stop callback is the `Expire` event.
- The component renders the sign-in form without a user, the game-over screen when `gameOver` is set, and the game otherwise.
- `Game.Step` ignores an event whose control is not rendered. The game-screen controls exist only on the game screen. A task row's toggle and delete buttons exist only for a task in the list. The mushroom signals completion only while the hero is in `mushroom-spawn`. The continue button exists only on the game-over screen.

How the hero state behaves in this code:
- A fetch with an unfinished task (or an empty list) sets `running` from every state, `mushroom-spawn` included (`src/App.jsx:92-94`).
- A fetch with a non-empty, fully completed list sets `fighting` even from `mushroom-spawn`.
- There is no `idle` or `jumping` state and no jump on add.
- `mushroom-spawn` has no fallback timer. It ends only on the animation-complete signal, on a fetch, or when the fight starts.
- The score is a fixed 100 points per completed task.

## Model

| member | source | states |
|---|---|---|
| Game.CompletedCount | src/App.jsx:87-90 | the completed count is at most the list length, equals it exactly when every task is done, and is zero exactly when none is |
| Game.CompleteOneMore | src/App.jsx:87-88 | finishing one unfinished task raises the completed count (and so the score) by exactly one |
| Game.SetHero | src/App.jsx:98-105 | only the hero and its fight timer change; re-setting the current state keeps the timer's progress, a real change resets it, and the consistency invariant is kept |
| Game.Fetch | src/App.jsx:85-95 | a failed fetch changes nothing; a successful one replaces the list and sets score = 100 × completed count, changes nothing but the list, score, hero and timer, and restarts the fight timer exactly when the hero changes |
| Game.FetchFeedsHud | src/App.jsx:85-88 | after a fetch, coins = completed count and score = 100 × coins, and the HUD's score and coin digits read back as those numbers |
| Game.FetchAllDone | src/App.jsx:90-91 | a non-empty, fully completed list gives `fighting`, or keeps `victory` if the hero has already won |
| Game.FetchRunning | src/App.jsx:90-94 | the hero becomes `running` after a fetch exactly when the list is empty or has an unfinished task, whatever the previous state |
| Game.FetchKeepsFightTimer | src/App.jsx:98-105 | a fetch that keeps the hero fighting does not restart the 3000 ms timer |
| Game.Elapse | src/App.jsx:98-105 | time only matters while fighting; once 3000 ms have passed since the fight began the timer fires, the hero is victorious, the timer is gone and nothing else changes |
| Game.FightDwell | src/App.jsx:98-105 | with no other events, the hero keeps fighting while the total elapsed time is below 3000 ms, and from then on the state is the fight state with the hero victorious and no timer |
| Game.VictoryStays | src/App.jsx:98-105 | no timer runs in `victory`, so time passing never leaves it |
| Game.AddTask | src/App.jsx:107-113 | blank input or no user: no change and no request; otherwise exactly one insert with the input as typed (not trimmed), the user id and the world, and the call waits with the input still in place |
| Game.FinishAddTask | src/App.jsx:114 | once an insert has been awaited the input is cleared, whatever it holds by then; with no call waiting nothing changes |
| Game.SubmitTwiceBeforeSettling | src/App.jsx:107-115 | two submits before the first insert settles send two identical inserts, and settling clears text typed in between |
| Game.ToggleTask | src/App.jsx:117-124 | toggling asks the store to flip the flag; completing spawns the mushroom and changes nothing but the hero and its timer, un-completing leaves the state unchanged |
| Game.CollectMushroom | src/App.jsx:231 | the mushroom-collected signal returns the hero to `running` and changes nothing but the hero and its timer |
| Game.ToggleTheme | src/App.jsx:235 | the theme button flips light/dark and changes nothing else |
| Game.ThemeInvolution | src/App.jsx:235 | flipping the theme twice restores the state |
| Game.CategoryName | src/App.jsx:305-308 | the world passed to the HUD is always one of Overworld, Castle, Pipe |
| Game.WorldCodes | src/components/HUD.jsx:28 | the three worlds show as 1-1, 8-4 and 4-2, all different |
| Game.Step | src/App.jsx:134-199 | a store request is only sent from the game screen; an event from a control that is not rendered (wrong screen, a task not in the list, no mushroom on stage) does nothing; every other event is dispatched to its handler |
| Game.Dispatch | src/App.jsx:107-199 | each event runs its handler: fetch, settled insert and time on any screen, a session change sets the user, then typing, submit, toggle, delete, mushroom, theme and world; give-up shows the game-over screen and continue leaves it; only game-screen controls send requests |
| Game.FightClock | src/App.jsx:98-105 | any event that moves the hero into fighting arms a fresh timer, and while the hero keeps fighting only elapsed time advances it |
| Game.GiveUpThenContinue | src/App.jsx:130-197 | give-up shows the game-over screen without a request, and continue returns exactly to the game as it was |
| Game.FightByEvents | src/App.jsx:85-105 | as an event run: a fetch of two done tasks starts the fight, 2999 ms later the hero still fights, the last millisecond wins, and no request is sent |
| Game.ScreenOf | src/App.jsx:134-199 | the sign-in form shows exactly when nobody is signed in, the game-over screen exactly when a signed-in user has given up |
| Game.Coins | src/App.jsx:219 | the coin count is at most the number of tasks, equals it exactly when all are done, and in a consistent state the score is 100 per coin |
| Game.Initial | src/App.jsx:10-17 | the first render: no user, no tasks, score 0, hero running, empty input, first world, light theme, game not over |
| Game.InitialInv | src/App.jsx:10-17 | the initial state is consistent and shows the sign-in screen |
| Game.StepPreservesInv | src/App.jsx:85-105 | every event keeps score = 100 × completed count, and keeps a fight timer only while fighting and below 3000 ms |
| Game.RunPreservesInv | src/App.jsx:85-105 | any sequence of events keeps that consistency |
| Game.StepKeepsEarned | src/App.jsx:90-105 | no event leaves the hero fighting or victorious over an empty list or one with an unfinished task |
| Game.RunKeepsEarned | src/App.jsx:90-105 | any sequence of events keeps that: a fighting or victorious hero always has a non-empty, fully completed list |
| Game.ReachableEarned | src/App.jsx:90-105 | in every state reachable from the initial one, fighting or victory implies a non-empty list with every task completed |
| Game.VictoryOnlyAfterDwell | src/App.jsx:98-105 | `victory` is entered only from `fighting`, by the timer, after the full 3000 ms |
| Game.CompletingATask | src/App.jsx:117-124 | completing an unfinished task sends one update to true and spawns the mushroom; collecting it makes the hero run; the refetched list scores exactly 100 more |
| Game.TwoDoneTasksWin | src/App.jsx:85-105 | two finished tasks: fight, win after 3000 ms, and back to running when an unfinished task appears |
| Pomodoro.Initial | src/components/PomodoroTimer.jsx:20-22 | the timer starts in work mode with 1500 s left, not running |
| Pomodoro.Minutes | src/components/PomodoroTimer.jsx:5-9 | the nominal length is 25 minutes for work, 5 for a short break, 15 for a long break, each value belonging to exactly one mode |
| Pomodoro.DefaultLabel | src/components/PomodoroTimer.jsx:5-9 | the default labels are WORK, SHORT BREAK and LONG BREAK, one per mode |
| Pomodoro.Step | src/components/PomodoroTimer.jsx:24-99 | each event runs its handler: mode buttons (line 99) switch mode, reset (line 86) re-switches to the current mode, start/pause (line 79) flips the flag, a tick takes a second off, and the stop callback stops the timer |
| Pomodoro.SwitchMode | src/components/PomodoroTimer.jsx:24-28 | whatever the prior state: mode m, minutes(m)·60 seconds left, stopped |
| Pomodoro.Reset | src/components/PomodoroTimer.jsx:85-88 | reset keeps the mode, refills the counter and stops the timer |
| Pomodoro.StartPause | src/components/PomodoroTimer.jsx:78-79 | start/pause flips only the active flag |
| Pomodoro.Tick | src/components/PomodoroTimer.jsx:30-35 | a tick takes exactly one second off, and only while active with time left |
| Pomodoro.Expire | src/components/PomodoroTimer.jsx:36-37 | the stop callback clears the active flag at zero and keeps the mode: no move to another mode |
| Pomodoro.StepPreservesValid | src/components/PomodoroTimer.jsx:24-40 | every event keeps 0 ≤ remaining ≤ nominal length of the mode |
| Pomodoro.RunPreservesValid | src/components/PomodoroTimer.jsx:24-40 | any sequence of events keeps that bound |
| Pomodoro.CountsDown | src/components/PomodoroTimer.jsx:30-35 | while running, n ticks take exactly n seconds off |
| Pomodoro.FullSession | src/components/PomodoroTimer.jsx:30-40 | switch, start and nominal-length ticks reach zero; the stop callback leaves the timer stopped in the same mode, and further ticks change nothing |
| Pomodoro.RestingIsStable | src/components/PomodoroTimer.jsx:30-35 | ticks do nothing to a stopped timer |
| Pomodoro.StartAtZeroBounces | src/components/PomodoroTimer.jsx:36-37 | starting at zero takes no second off and bounces back to stopped |
| Pomodoro.FormatTime | src/components/PomodoroTimer.jsx:42-46 | the display has a colon third from the end and is exactly 5 characters below 6000 s |
| Pomodoro.FormatTimeRoundTrip | src/components/PomodoroTimer.jsx:42-46 | parsing the display gives back minutes·60 + seconds = the input |
| Pomodoro.Label | src/components/PomodoroTimer.jsx:19-55 | the label is never empty; without a saga prop the mario labels are used, and an unknown saga falls back to the mode's default label |
| Pomodoro.LabelsDistinguishModes | src/components/PomodoroTimer.jsx:11-17 | under any saga the three modes have different labels; a known saga uses its theme labels |
| Pomodoro.ThemeLabel | src/components/PomodoroTimer.jsx:11-17 | every theme label is non-empty |
| Pomodoro.ThemeLabelsTable | src/components/PomodoroTimer.jsx:5-17 | the fifteen theme labels, saga by saga and mode by mode, none equal to the default label of its mode |
| Sagas.Lookup | src/components/PomodoroTimer.jsx:11-17 | a saga found by lookup is the one named by that key |
| Sagas.LookupKey | src/components/BadgeDisplay.jsx:4-10 | every saga is found under its own key |
| Badges.InfoFor | src/components/BadgeDisplay.jsx:12-14 | a known saga gets its own badge info; an absent prop or an unknown saga gets mario's |
| Badges.InfoOf | src/components/BadgeDisplay.jsx:4-10 | every saga has a non-empty badge name and a #RRGGBB colour |
| Badges.SagaBadgesTable | src/components/BadgeDisplay.jsx:4-10 | the five badge names and colours, saga by saga, with no badge name shared by two sagas |
| Sagas.PropKey | src/components/BadgeDisplay.jsx:12 | an absent saga prop means `mario`; a passed prop is used as given |
| Badges.BadgesCount | src/components/BadgeDisplay.jsx:13 | badges = the number of complete groups of three completed tasks |
| Badges.BadgesMonotone | src/components/BadgeDisplay.jsx:13 | more completed tasks never means fewer badges |
| Badges.Titles | src/components/BadgeDisplay.jsx:27-31 | exactly n badges, the i-th titled with number i+1 |
| Badges.TitlesDistinct | src/components/BadgeDisplay.jsx:27-31 | no two badges share a title |
| Badges.Render | src/components/BadgeDisplay.jsx:13-51 | nothing is rendered below three completed tasks; otherwise one badge per three tasks, badge i titled with the saga's badge name and number i+1, the saga's badge info and a bonus of 1000 per badge |
| Badges.Title | src/components/BadgeDisplay.jsx:31 | a title is the badge name, then " #", then digits with no leading zero that read back as the badge number |
| Text.ZeroPad | src/components/HUD.jsx:11 | padding only prepends zeros: the result is max(width, digit count) long, ends with the plain digits, and reads back as the number |
| Hud.ScoreText | src/components/HUD.jsx:11 | the score is its digits zero-padded to six (never more zeros than needed), exactly six characters below a million, and reads back as the score |
| Hud.ScoreLength | src/components/HUD.jsx:11 | scores below a million have at most six digits |
| Hud.CounterText | src/components/HUD.jsx:20 | the coin count (and the lives count, HUD.jsx line 36) is its digits zero-padded to two (never more zeros than needed), and reads back as the count |
| Hud.WorldCode | src/components/HUD.jsx:28 | Overworld gives 1-1, Castle gives 8-4, every other name gives 4-2 (each in both directions) |
| Hud.Render | src/components/HUD.jsx:3-42 | the HUD prints the score padded to six digits and coins and lives padded to two, each reading back as its prop, and the world as its level code |
| Folders.Normalize | src/components/FolderList.jsx:11 | the folder name is the input between its leading and trailing whitespace, with each lower-case letter replaced by its capital and nothing else changed; it is empty exactly when the input is all whitespace |
| Folders.Initial | src/components/FolderList.jsx:5-6 | the form starts closed with an empty input |
| Folders.NormalizeIdempotent | src/components/FolderList.jsx:10-11 | normalising a normalised name changes nothing |
| Folders.Submit | src/components/FolderList.jsx:8-15 | a blank input changes nothing and adds nothing; otherwise one add with the normalised name, an empty input and a closed form |
| Folders.SubmittedNameIsNormal | src/components/FolderList.jsx:10-11 | every added name is non-empty, trimmed, has no lower-case letter and is already normal |
| Folders.Edit | src/components/FolderList.jsx:55 | typing replaces the input and leaves the form open or closed |
| Folders.TogglePanel | src/components/FolderList.jsx:24 | the plus button flips whether the form is open |
| Folders.Cancel | src/components/FolderList.jsx:63 | cancel always closes the form |
| Folders.ToggleTwice | src/components/FolderList.jsx:24 | pressing plus twice restores the form state |
| Text.Trim | src/components/FolderList.jsx:10 | trim leaves the infix between the leading and trailing whitespace, with no whitespace at either end; it is empty exactly for all-whitespace input |
| Text.TrimOfTrimmed | src/components/FolderList.jsx:10 | a string with no whitespace at either end is its own trim |
| Text.TrimIdempotent | src/App.jsx:109 | trimming twice equals trimming once |
| Text.ToUpper | src/components/FolderList.jsx:11 | upper-casing keeps the length, leaves no lower-case letter, turns each lower-case letter into its capital and keeps every other character |
| Text.UpperKeepsTrimmed | src/components/FolderList.jsx:11 | upper-casing a trimmed string leaves it trimmed, and empty only if it was empty |
| Text.UpperIdempotent | src/components/FolderList.jsx:11 | upper-casing twice equals upper-casing once |
| Text.Decimal | src/components/HUD.jsx:11 | toString gives digits only, with no leading zero except for 0 itself; one digit below 10, at most two below 100 |
| Text.ValueOfDecimal | src/components/HUD.jsx:11 | reading toString's digits back gives the number |
| Text.DecimalInjective | src/components/BadgeDisplay.jsx:31 | different numbers print differently |
| Text.PadStart | src/components/HUD.jsx:11 | padStart's result is max(width, length) long, ends with the input and has only pad characters before it |
| Text.PaddedDecimalValue | src/components/PomodoroTimer.jsx:45 | zero-padding a number's digits keeps its value |

## Left out

- Store traffic: sign-in, sign-up and OAuth (`handleAuth`, the sign-in form), the session listener, the realtime channel, sign-out, and the select/insert/update/delete calls. Fetched lists are inputs; mutations are emitted `Request`s. Sessions appear only as the `SessionChanged` event.
- Store ordering by `created_at`: the fetched list is taken in the order given.
- Store errors on insert, update and delete are not modelled. The code ignores them: `InsertSettled` carries no outcome, and `addTask` clears the input even when the insert fails.
- Wall-clock time and the order of overlapping asynchronous completions: timers are `TimePassed`, `Tick` and `Expire` events.
- Stale closures: `fetchTasks` reads `marioState` from the render that created it, so its `victory` guard can see an old value. `Game.Fetch` uses the current state.
- `Pomodoro.Expire`: the zero-delay stop callback is never cancelled. A reset and restart landing before it fires would be stopped by it. The model fires it only from the active, at-zero state that scheduled it.
- The timer's progress percentage is floating point. `Pomodoro.Valid` states the integer bound on the remaining time instead.
- Presentation: `MarioSprite.jsx`, `GameHero.jsx`, `TaskItem.jsx`, `tailwind.config.js`, colours, icons and all layout. The `TIME` suffix and the fixed `300` time in the HUD are static text.
- `lives`: `App.jsx` passes no `lives` prop to the HUD (`src/App.jsx:219`), but the HUD calls `lives.toString()` (`src/components/HUD.jsx:36`), which throws on `undefined`. `Hud.CounterText` and `Hud.Render` take `lives` as a required natural number. The crash is not modelled.
- Unicode: `trim` and `toUpperCase` are modelled on ASCII only, with the whitespace set tab, line feed, vertical tab, form feed, carriage return and space. Non-ASCII case mappings that change length are not modelled.
- Saga lookups are plain JavaScript objects, so inherited keys such as `constructor` would be found. The model treats every key other than the five sagas as unknown.
- The icon and colour of badges are carried as table data only. The animation duration per badge is presentation.
- Task filtering by world or search text, priority sorting, and the `idle` and `jumping` hero states do not exist in this code.
- Task ids are opaque strings in the store and are modelled as natural numbers.
- Text.Decimal: JavaScript's `toString` on a number is modelled for non-negative integers only. Numbers at or above 10^21 print in exponent form, and precision is lost above 2^53; neither is modelled. Scores, coin counts and timer seconds stay far below both.
- Text.ZeroPad: inherits the same limit from `Text.Decimal`.

=== FILE: badges.dfy ===
/**
 The achievement panel of `BadgeDisplay.jsx`: one badge for every three
 completed tasks, a bonus of 1000 points per badge, themed by the saga.
 Icons and colours beyond the table entry are presentation and not modelled.
 */
module Badges {
  import opened Optional
  import Text
  import Sagas

  const TasksPerBadge: nat := 3
  const BonusPerBadge: nat := 1000

  datatype BadgeInfo = BadgeInfo(name: string, color: string)

  /** The `sagaBadges` table: every saga has a named badge and a `#RRGGBB`
      colour. */
  function InfoOf(s: Sagas.Saga): (b: BadgeInfo)
    ensures b.name != []
    ensures |b.color| == 7 && b.color[0] == '#'
  {
    match s
    case Mario => BadgeInfo("INVINCIBILITY STAR", "#F8D870")
    case Pacman => BadgeInfo("GHOST HUNTER", "#FFFF00")
    case Sonic => BadgeInfo("CHAOS EMERALD", "#0040C0")
    case Pokemon => BadgeInfo("GYM BADGE", "#FF0000")
    case Zelda => BadgeInfo("TRIFORCE PIECE", "#00A800")
  }

  /** The `sagaBadges` table entry by entry; no two sagas share a badge name. */
  lemma SagaBadgesTable()
    ensures InfoOf(Sagas.Mario) == BadgeInfo("INVINCIBILITY STAR", "#F8D870")
    ensures InfoOf(Sagas.Pacman) == BadgeInfo("GHOST HUNTER", "#FFFF00")
    ensures InfoOf(Sagas.Sonic) == BadgeInfo("CHAOS EMERALD", "#0040C0")
    ensures InfoOf(Sagas.Pokemon) == BadgeInfo("GYM BADGE", "#FF0000")
    ensures InfoOf(Sagas.Zelda) == BadgeInfo("TRIFORCE PIECE", "#00A800")
    ensures forall s, t :: s != t ==> InfoOf(s).name != InfoOf(t).name
  {
  }

  /** The badge theme for a saga prop: its table entry, or mario's when the
      prop is absent or names no known saga. */
  function InfoFor(saga: Option<string>): (b: BadgeInfo)
    ensures saga.None? ==> b == InfoOf(Sagas.Mario)
    ensures saga.Some? && Sagas.Lookup(saga.value).None? ==> b == InfoOf(Sagas.Mario)
    ensures forall s :: saga == Some(Sagas.Key(s)) ==> b == InfoOf(s)
  {
    match Sagas.Lookup(Sagas.PropKey(saga))
    case Some(s) => InfoOf(s)
    case None => InfoOf(Sagas.Mario)
  }

  /** `badgesCount`: the number of complete groups of three finished tasks. */
  function BadgesCount(completedCount: nat): (n: nat)
    ensures n * TasksPerBadge <= completedCount < (n + 1) * TasksPerBadge
  {
    completedCount / TasksPerBadge
  }

  /** Completing more tasks never loses a badge. */
  lemma BadgesMonotone(a: nat, b: nat)
    requires a <= b
    ensures BadgesCount(a) <= BadgesCount(b)
  {
  }

  /** The tooltip title of the `k`-th badge (counting from 1): the badge name,
      then ` #`, then the number's digits with no leading zero. */
  function Title(name: string, k: nat): (t: string)
    ensures |t| > |name| + 2 && t[..|name|] == name && t[|name|..|name| + 2] == " #"
    ensures Text.AllDigits(t[|name| + 2..]) && Text.Value(t[|name| + 2..]) == k
    ensures |t| > |name| + 3 ==> t[|name| + 2] != '0'
  {
    Text.ValueOfDecimal(k);
    assert (name + " #" + Text.Decimal(k))[|name| + 2..] == Text.Decimal(k);
    name + " #" + Text.Decimal(k)
  }

  /** The titles of `n` badges: badge `i` (from 0) is titled with number `i + 1`. */
  function Titles(name: string, n: nat): (ts: seq<string>)
    ensures |ts| == n
    ensures forall i :: 0 <= i < n ==> ts[i] == Title(name, i + 1)
    decreases n
  {
    if n == 0 then [] else Titles(name, n - 1) + [Title(name, n)]
  }

  /** No two badges share a title. */
  lemma TitlesDistinct(name: string, n: nat, i: nat, j: nat)
    requires i < j < n
    ensures Titles(name, n)[i] != Titles(name, n)[j]
  {
    var ts := Titles(name, n);
    assert Text.Value(ts[i][|name| + 2..]) == i + 1;
  }

  datatype Panel = Panel(info: BadgeInfo, titles: seq<string>, bonus: nat)

  /** What the component renders: nothing below three completed tasks, else
      one badge per group of three, titled with the saga's badge name and its
      number from 1, and a bonus of 1000 points each. */
  function Render(completedCount: nat, saga: Option<string>): (p: Option<Panel>)
    ensures p.None? <==> completedCount < TasksPerBadge
    ensures p.Some? ==> p.value.info == InfoFor(saga)
    ensures p.Some? ==> |p.value.titles| * TasksPerBadge <= completedCount < (|p.value.titles| + 1) * TasksPerBadge
    ensures p.Some? ==> forall i :: 0 <= i < |p.value.titles| ==> p.value.titles[i] == Title(p.value.info.name, i + 1)
    ensures p.Some? ==> p.value.bonus == |p.value.titles| * BonusPerBadge
  {
    var n := BadgesCount(completedCount);
    var info := InfoFor(saga);
    if n <= 0 then None else Some(Panel(info, Titles(info.name, n), n * BonusPerBadge))
  }
}

=== FILE: folders.dfy ===
/**
 The folder panel of `FolderList.jsx`: a toggleable "new folder" form whose
 submission hands a normalised name (trimmed, upper-cased) to the parent.
 */
module Folders {
  import opened Optional
  import Text

  /** The component's local state: whether the form is open, and its input. */
  datatype Form = Form(isAdding: bool, draft: string)

  /** The form starts closed with an empty input. */
  function Initial(): (f: Form)
    ensures !f.isAdding && f.draft == []
  {
    Form(false, "")
  }

  /** The name handed to `onAdd`: `name.trim().toUpperCase()`. The result is
      the part of `name` between its leading and trailing whitespace, with
      each lower-case letter replaced by its capital and nothing else
      changed; it is empty exactly when `name` is all whitespace. */
  function Normalize(name: string): (r: string)
    ensures Text.IsTrimmed(r)
    ensures |r| == Text.TrimEnd(name) - Text.TrimStart(name) <= |name|
    ensures forall i :: 0 <= i < |r| ==> !Text.IsLower(r[i])
    ensures forall i :: 0 <= i < |r| ==> Text.UpperOf(name[Text.TrimStart(name) + i], r[i])
    ensures r == [] <==> Text.AllSpace(name)
  {
    Text.UpperKeepsTrimmed(Text.Trim(name));
    Text.ToUpper(Text.Trim(name))
  }

  /** Normalising a normalised name changes nothing. */
  lemma NormalizeIdempotent(name: string)
    ensures Normalize(Normalize(name)) == Normalize(name)
  {
    var n := Normalize(name);
    Text.TrimOfTrimmed(n);
    Text.UpperIdempotent(Text.Trim(name));
  }

  /** The result of a submit: the next form state and the name passed to
      `onAdd`, if it was called. */
  datatype Submitted = Submitted(form: Form, added: Option<string>)

  /** `handleSubmit`: an input that trims to nothing is ignored entirely;
      otherwise `onAdd` is called once with the normalised name, the input is
      cleared and the form closes. */
  function Submit(f: Form): (s: Submitted)
    ensures Text.AllSpace(f.draft) ==> s == Submitted(f, None)
    ensures !Text.AllSpace(f.draft) ==> s == Submitted(Form(false, ""), Some(Normalize(f.draft)))
  {
    if Text.Trim(f.draft) != [] then Submitted(Form(false, ""), Some(Normalize(f.draft)))
    else Submitted(f, None)
  }

  /** Every name handed to the parent is non-empty, has no whitespace at
      either end, contains no lower-case letter and is already in normal form. */
  lemma SubmittedNameIsNormal(f: Form)
    requires Submit(f).added.Some?
    ensures var name := Submit(f).added.value;
      name != [] && Text.IsTrimmed(name) && Normalize(name) == name
    ensures forall i :: 0 <= i < |Submit(f).added.value| ==> !Text.IsLower(Submit(f).added.value[i])
  {
    NormalizeIdempotent(f.draft);
  }

  /** Typing in the input. */
  function Edit(f: Form, text: string): (g: Form)
    ensures g.draft == text && g.isAdding == f.isAdding
  {
    f.(draft := text)
  }

  /** The folder-plus button opens a closed form and closes an open one. */
  function TogglePanel(f: Form): (g: Form)
    ensures g.isAdding != f.isAdding && g.draft == f.draft
  {
    f.(isAdding := !f.isAdding)
  }

  /** The cancel button always closes the form and keeps the input. */
  function Cancel(f: Form): (g: Form)
    ensures !g.isAdding && g.draft == f.draft
  {
    f.(isAdding := false)
  }

  /** Pressing the folder-plus button twice restores the form state. */
  lemma ToggleTwice(f: Form)
    ensures TogglePanel(TogglePanel(f)) == f
  {
  }
}

=== FILE: game.dfy ===
/**
 The task/game-state reconciliation of `App.jsx`. A fetch of the task list
 replaces the list, recomputes the score and derives the hero state; the
 hero's one-shot fighting timer, the add/toggle/delete handlers and the
 screen-level setters (theme, world, give up) complete the state machine.

 Store calls are not performed: a finished fetch arrives as an event carrying
 the fetched list (or nothing, when the store reported an error), and each
 mutation is emitted as a `Request`; the resumption of `addTask` after its
 insert has been awaited arrives as `InsertSettled`. Elapsed time arrives as
 `TimePassed(ms)`.
 */
module Game {
  import opened Optional
  import Text
  import Hud

  /** Points per completed task. */
  const PointsPerTask: nat := 100
  /** How long the hero fights before winning, in milliseconds. */
  const FightDwellMs: nat := 3000

  /** The worlds a task can be filed under; the selector shows these three. */
  datatype Category = Overworld | Castle | Pipe

  function CategoryName(c: Category): (name: string)
    ensures name in {"Overworld", "Castle", "Pipe"}
  {
    match c
    case Overworld => "Overworld"
    case Castle => "Castle"
    case Pipe => "Pipe"
  }

  datatype Theme = Light | Dark

  /** The hero sprite states this component ever sets. */
  datatype Hero = Running | Fighting | Victory | MushroomSpawn

  /** A task row as the store returns it. */
  datatype Task = Task(id: nat, title: string, owner: string, completed: bool, category: string)

  /** A mutation sent to the store. */
  datatype Request =
    | Insert(title: string, owner: string, category: string)
    | Update(id: nat, completed: bool)
    | Remove(id: nat)

  /** The component's state. `fightElapsed` is how long the armed fighting
      timer has been running; no timer exists outside `Fighting`.
      `pendingInserts` counts `addTask` calls still awaiting their insert. */
  datatype App = App(
    user: Option<string>,
    tasks: seq<Task>,
    score: nat,
    hero: Hero,
    fightElapsed: nat,
    draft: string,
    pendingInserts: nat,
    category: Category,
    theme: Theme,
    gameOver: bool)

  /** The first render: nobody signed in, no tasks, no score, the hero
      running, an empty input, the first world, the light theme, and the game
      not over. */
  function Initial(): (a: App)
    ensures a.user.None? && a.tasks == [] && a.score == 0 && a.hero == Running
    ensures a.draft == [] && a.pendingInserts == 0
    ensures a.category == Overworld && a.theme == Light && !a.gameOver
  {
    App(None, [], 0, Running, 0, "", 0, Overworld, Light, false)
  }

  /** `data.every(t => t.completed)`. */
  predicate AllCompleted(ts: seq<Task>) {
    forall i :: 0 <= i < |ts| ==> ts[i].completed
  }

  /** `data.filter(t => t.completed).length`: never more than the list, equal
      to it exactly when every task is done, zero exactly when none is. */
  function CompletedCount(ts: seq<Task>): (n: nat)
    ensures n <= |ts|
    ensures n == |ts| <==> AllCompleted(ts)
    ensures n == 0 <==> forall i :: 0 <= i < |ts| ==> !ts[i].completed
  {
    if ts == [] then 0
    else (if ts[0].completed then 1 else 0) + CompletedCount(ts[1..])
  }

  /** Finishing one unfinished task raises the completed count by exactly one. */
  lemma {:induction false} CompleteOneMore(ts: seq<Task>, i: nat)
    requires i < |ts| && !ts[i].completed
    ensures CompletedCount(ts[i := ts[i].(completed := true)]) == CompletedCount(ts) + 1
    decreases |ts|
  {
    var us := ts[i := ts[i].(completed := true)];
    if i > 0 {
      assert us[1..] == ts[1..][i - 1 := ts[i].(completed := true)];
      CompleteOneMore(ts[1..], i - 1);
    } else {
      assert us[1..] == ts[1..];
    }
  }

  /** The coin count passed to the HUD: one coin per completed task, so in a
      consistent state the score is always 100 points per coin. */
  function Coins(app: App): (n: nat)
    ensures n <= |app.tasks|
    ensures n == |app.tasks| <==> AllCompleted(app.tasks)
    ensures Inv(app) ==> app.score == PointsPerTask * n
  {
    CompletedCount(app.tasks)
  }

  /** `setMarioState(h)` together with the effect keyed on the hero state.
      Only the hero and its fighting timer can change. Setting the state the
      hero already has does not re-run the effect, so a running fight timer
      keeps its progress; any real change tears the timer down, and entering
      `Fighting` arms a fresh one. The consistency invariant is kept. */
  function SetHero(app: App, h: Hero): (r: App)
    ensures r.hero == h
    ensures r.(hero := app.hero, fightElapsed := app.fightElapsed) == app
    ensures app.hero == h ==> r.fightElapsed == app.fightElapsed
    ensures app.hero != h ==> r.fightElapsed == 0
    ensures Inv(app) ==> Inv(r)
  {
    if app.hero == h then app else app.(hero := h, fightElapsed := 0)
  }

  /** The end of `fetchTasks`: on an error nothing changes; otherwise the list
      and the score are replaced and the hero state is derived from the list.
      Nothing else changes. A fetch that changes the hero starts any fight
      timer afresh; one that keeps the hero keeps the timer's progress. */
  function Fetch(app: App, result: Option<seq<Task>>): (r: App)
    ensures result.None? ==> r == app
    ensures result.Some? ==> r.tasks == result.value && r.score == PointsPerTask * CompletedCount(result.value)
    ensures r.(tasks := app.tasks, score := app.score, hero := app.hero, fightElapsed := app.fightElapsed) == app
    ensures r.hero != app.hero ==> r.fightElapsed == 0
    ensures r.hero == app.hero ==> r.fightElapsed == app.fightElapsed
  {
    match result
    case None => app
    case Some(data) =>
      var a := app.(tasks := data, score := CompletedCount(data) * PointsPerTask);
      if |data| > 0 && AllCompleted(data) then
        (if app.hero != Victory then SetHero(a, Fighting) else a)
      else SetHero(a, Running)
  }

  /** After a fetch the HUD shows the score and the coins of the fetched list:
      100 points per completed task, one coin per completed task. */
  lemma FetchFeedsHud(app: App, data: seq<Task>, lives: nat)
    ensures var r := Fetch(app, Some(data));
      && Coins(r) == CompletedCount(data)
      && r.score == Coins(r) * PointsPerTask
      && Text.AllDigits(Hud.ScoreText(r.score))
      && Text.Value(Hud.ScoreText(r.score)) == PointsPerTask * CompletedCount(data)
      && Text.AllDigits(Hud.CounterText(Coins(r)))
      && Text.Value(Hud.CounterText(Coins(r))) == CompletedCount(data)
  {
  }

  /** A non-empty, fully completed list starts the fight, unless the hero has
      already won, in which case it stays victorious. */
  lemma FetchAllDone(app: App, data: seq<Task>)
    requires data != [] && CompletedCount(data) == |data|
    ensures Fetch(app, Some(data)).hero == if app.hero == Victory then Victory else Fighting
  {
  }

  /** An empty list, or one with an unfinished task, sends the hero back to
      running from any state, victory and mushroom-spawn included; these are
      the only lists that do. */
  lemma FetchRunning(app: App, data: seq<Task>)
    ensures Fetch(app, Some(data)).hero == Running <==> data == [] || CompletedCount(data) < |data|
  {
  }

  /** A fetch that keeps the hero fighting does not restart the fight timer. */
  lemma FetchKeepsFightTimer(app: App, data: seq<Task>)
    requires app.hero == Fighting && data != [] && AllCompleted(data)
    ensures Fetch(app, Some(data)).hero == Fighting
    ensures Fetch(app, Some(data)).fightElapsed == app.fightElapsed
  {
  }

  /** The fighting timer: `ms` more milliseconds pass. Only a hero in
      `Fighting` has a timer; it fires once the full dwell has elapsed, moves
      the hero to `Victory`, is gone afterwards, and touches nothing else. */
  function Elapse(app: App, ms: nat): (r: App)
    ensures app.hero != Fighting ==> r == app
    ensures app.hero == Fighting && app.fightElapsed + ms >= FightDwellMs ==>
      r == app.(hero := Victory, fightElapsed := 0)
    ensures app.hero == Fighting && app.fightElapsed + ms < FightDwellMs ==>
      r == app.(fightElapsed := app.fightElapsed + ms)
  {
    if app.hero != Fighting then app
    else if app.fightElapsed + ms >= FightDwellMs then SetHero(app, Victory)
    else app.(fightElapsed := app.fightElapsed + ms)
  }

  function Sum(ds: seq<nat>): nat {
    if ds == [] then 0 else ds[0] + Sum(ds[1..])
  }

  function ElapseAll(app: App, ds: seq<nat>): App
    decreases |ds|
  {
    if ds == [] then app else ElapseAll(Elapse(app, ds[0]), ds[1..])
  }

  /** With nothing else happening, a hero that has fought for `fightElapsed`
      ms keeps fighting until the total reaches the dwell and has won from
      then on. */
  lemma {:induction false} FightDwell(app: App, ds: seq<nat>)
    requires app.hero == Fighting && app.fightElapsed < FightDwellMs
    ensures app.fightElapsed + Sum(ds) < FightDwellMs ==>
      ElapseAll(app, ds) == app.(fightElapsed := app.fightElapsed + Sum(ds))
    ensures app.fightElapsed + Sum(ds) >= FightDwellMs ==>
      ElapseAll(app, ds) == app.(hero := Victory, fightElapsed := 0)
    decreases |ds|
  {
    if ds != [] {
      var next := Elapse(app, ds[0]);
      if next.hero == Fighting {
        FightDwell(next, ds[1..]);
      } else {
        VictoryStays(next, ds[1..]);
      }
    }
  }

  /** Time passing never takes the hero out of `Victory`. */
  lemma {:induction false} VictoryStays(app: App, ds: seq<nat>)
    requires app.hero == Victory
    ensures ElapseAll(app, ds) == app
    decreases |ds|
  {
    if ds != [] {
      VictoryStays(Elapse(app, ds[0]), ds[1..]);
    }
  }

  /** What a handler produced: the next state and the store request it sent. */
  datatype Outcome = Outcome(app: App, request: Option<Request>)

  /** The synchronous part of `addTask`: nothing happens when the input trims
      to nothing or nobody is signed in; otherwise exactly one insert carries
      the input as typed (not trimmed), the user's id and the selected world,
      and the call suspends awaiting it. The input is not cleared yet. */
  function AddTask(app: App): (o: Outcome)
    ensures Text.AllSpace(app.draft) || app.user.None? ==> o == Outcome(app, None)
    ensures !Text.AllSpace(app.draft) && app.user.Some? ==>
      o == Outcome(app.(pendingInserts := app.pendingInserts + 1),
                   Some(Insert(app.draft, app.user.value, CategoryName(app.category))))
  {
    if Text.Trim(app.draft) == [] || app.user.None? then Outcome(app, None)
    else Outcome(app.(pendingInserts := app.pendingInserts + 1),
                 Some(Insert(app.draft, app.user.value, CategoryName(app.category))))
  }

  /** The rest of `addTask`, once its insert has been awaited (whether or not
      the store reported an error): the input is cleared, whatever it holds by
      then. With no call suspended there is nothing to resume. */
  function FinishAddTask(app: App): (r: App)
    ensures app.pendingInserts == 0 ==> r == app
    ensures app.pendingInserts > 0 ==> r == app.(draft := "", pendingInserts := app.pendingInserts - 1)
  {
    if app.pendingInserts == 0 then app
    else app.(draft := "", pendingInserts := app.pendingInserts - 1)
  }

  /** `toggleTask`: asks the store to flip the task's flag. Completing a task
      spawns the mushroom and changes nothing else (the list itself waits for
      the next fetch); un-completing it leaves the state alone. */
  function ToggleTask(app: App, task: Task): (o: Outcome)
    ensures o.request == Some(Update(task.id, !task.completed))
    ensures !task.completed ==> o.app.hero == MushroomSpawn
    ensures o.app.(hero := app.hero, fightElapsed := app.fightElapsed) == app
    ensures task.completed ==> o.app == app
  {
    var status := !task.completed;
    Outcome(if status then SetHero(app, MushroomSpawn) else app, Some(Update(task.id, status)))
  }

  /** The mushroom animation finished: the hero runs again, whatever it was
      doing, and nothing but the hero and its timer changes. */
  function CollectMushroom(app: App): (r: App)
    ensures r.hero == Running
    ensures r.(fightElapsed := app.fightElapsed) == app.(hero := Running)
    ensures app.hero != Running ==> r.fightElapsed == 0
  {
    SetHero(app, Running)
  }

  /** The theme button switches between light and dark. */
  function ToggleTheme(app: App): (r: App)
    ensures r.theme != app.theme
    ensures r == app.(theme := r.theme)
  {
    app.(theme := if app.theme == Light then Dark else Light)
  }

  /** Switching the theme twice restores it. */
  lemma ThemeInvolution(app: App)
    ensures ToggleTheme(ToggleTheme(app)) == app
  {
  }

  /** The world shown by the HUD is the selected category's level code, and
      the three worlds get three different codes. */
  lemma WorldCodes(c: Category, d: Category)
    ensures Hud.WorldCode(CategoryName(Overworld)) == "1-1"
    ensures Hud.WorldCode(CategoryName(Castle)) == "8-4"
    ensures Hud.WorldCode(CategoryName(Pipe)) == "4-2"
    ensures c != d ==> Hud.WorldCode(CategoryName(c)) != Hud.WorldCode(CategoryName(d))
  {
  }

  /** Which screen is rendered: the sign-in form, the game-over screen, or the game. */
  datatype Screen = Login | GameOverScreen | Main

  /** Signed-out users see the sign-in form whatever else holds; a signed-in
      user sees the game-over screen exactly while the game is over. */
  function ScreenOf(app: App): (s: Screen)
    ensures s == Login <==> app.user.None?
    ensures s == GameOverScreen <==> app.user.Some? && app.gameOver
  {
    if app.user.None? then Login else if app.gameOver then GameOverScreen else Main
  }

  /** Everything that can happen to the component. `Fetched`, `InsertSettled`
      and `TimePassed` come from the store and the clock, `SessionChanged`
      from the auth listener; the rest are controls on one screen. */
  datatype Event =
    | Fetched(result: Option<seq<Task>>)
    | InsertSettled
    | TimePassed(ms: nat)
    | SessionChanged(user: Option<string>)
    | EditDraft(text: string)
    | SubmitDraft
    | ToggleTaskPressed(task: Task)
    | DeletePressed(task: Task)
    | MushroomCollected
    | ThemePressed
    | WorldPressed(c: Category)
    | GiveUpPressed
    | ContinuePressed

  /** The events that come from a control on one of the screens. */
  predicate IsControl(e: Event) {
    !(e.Fetched? || e.InsertSettled? || e.TimePassed? || e.SessionChanged?)
  }

  /** Whether the control an event comes from is rendered: the game-screen
      controls only on the game screen, a task row's buttons only for a task
      in the list, the mushroom only while the hero is in `MushroomSpawn`, and
      the continue button only on the game-over screen. */
  predicate Reachable(app: App, e: Event) {
    match e
    case ContinuePressed => ScreenOf(app) == GameOverScreen
    case ToggleTaskPressed(task) => ScreenOf(app) == Main && task in app.tasks
    case DeletePressed(task) => ScreenOf(app) == Main && task in app.tasks
    case MushroomCollected => ScreenOf(app) == Main && app.hero == MushroomSpawn
    case _ => IsControl(e) ==> ScreenOf(app) == Main
  }

  /** What an event does once its control is rendered (or when it needs no
      control): a finished fetch, a settled insert and elapsed time run their
      handlers, a session change sets the user, and each control runs its
      handler. Giving up shows the game-over screen, continuing leaves it, and
      the world and theme controls change only the world and the theme. Only
      game-screen controls send store requests. */
  function Dispatch(app: App, e: Event): (o: Outcome)
    requires Reachable(app, e)
    ensures o.request.Some? ==> ScreenOf(app) == Main
    ensures e.Fetched? ==> o == Outcome(Fetch(app, e.result), None)
    ensures e.InsertSettled? ==> o == Outcome(FinishAddTask(app), None)
    ensures e.TimePassed? ==> o == Outcome(Elapse(app, e.ms), None)
    ensures e.SessionChanged? ==> o == Outcome(app.(user := e.user), None)
    ensures e.EditDraft? ==> o == Outcome(app.(draft := e.text), None)
    ensures e.SubmitDraft? ==> o == AddTask(app)
    ensures e.ToggleTaskPressed? ==> o == ToggleTask(app, e.task)
    ensures e.DeletePressed? ==> o == Outcome(app, Some(Remove(e.task.id)))
    ensures e.MushroomCollected? ==> o == Outcome(CollectMushroom(app), None)
    ensures e.ThemePressed? ==> o == Outcome(ToggleTheme(app), None)
    ensures e.WorldPressed? ==> o == Outcome(app.(category := e.c), None)
    ensures e.GiveUpPressed? ==> o == Outcome(app.(gameOver := true), None) && ScreenOf(o.app) == GameOverScreen
    ensures e.ContinuePressed? ==> o == Outcome(app.(gameOver := false), None) && ScreenOf(o.app) == Main
  {
    match e
    case Fetched(result) => Outcome(Fetch(app, result), None)
    case InsertSettled => Outcome(FinishAddTask(app), None)
    case TimePassed(ms) => Outcome(Elapse(app, ms), None)
    case SessionChanged(user) => Outcome(app.(user := user), None)
    case ContinuePressed => Outcome(app.(gameOver := false), None)
    case EditDraft(text) => Outcome(app.(draft := text), None)
    case SubmitDraft => AddTask(app)
    case ToggleTaskPressed(task) => ToggleTask(app, task)
    case DeletePressed(task) => Outcome(app, Some(Remove(task.id)))
    case MushroomCollected => Outcome(CollectMushroom(app), None)
    case ThemePressed => Outcome(ToggleTheme(app), None)
    case WorldPressed(c) => Outcome(app.(category := c), None)
    case GiveUpPressed => Outcome(app.(gameOver := true), None)
  }

  /** One event. A control that is not rendered cannot be used, so its event
      changes nothing; every other event is dispatched to its handler, and
      only game-screen controls send store requests. */
  function Step(app: App, e: Event): (o: Outcome)
    ensures o.request.Some? ==> ScreenOf(app) == Main
    ensures !Reachable(app, e) ==> o == Outcome(app, None)
    ensures Reachable(app, e) ==> o == Dispatch(app, e)
  {
    if Reachable(app, e) then Dispatch(app, e) else Outcome(app, None)
  }

  /** The consistency the component keeps: the score matches the list, and a
      fighting timer exists only while fighting and has not yet fired. */
  predicate Inv(app: App) {
    && app.score == PointsPerTask * CompletedCount(app.tasks)
    && (app.hero != Fighting ==> app.fightElapsed == 0)
    && app.fightElapsed < FightDwellMs
  }

  lemma InitialInv()
    ensures Inv(Initial()) && ScreenOf(Initial()) == Login
  {
  }

  lemma StepPreservesInv(app: App, e: Event)
    requires Inv(app)
    ensures Inv(Step(app, e).app)
  {
  }

  /** Applies events in order, collecting the requests they send. */
  function Run(app: App, es: seq<Event>): (App, seq<Request>)
    decreases |es|
  {
    if es == [] then (app, [])
    else
      var o := Step(app, es[0]);
      var (end, rest) := Run(o.app, es[1..]);
      (end, (if o.request.Some? then [o.request.value] else []) + rest)
  }

  /** Every state reachable from the initial one is consistent. */
  lemma {:induction false} RunPreservesInv(app: App, es: seq<Event>)
    requires Inv(app)
    ensures Inv(Run(app, es).0)
    decreases |es|
  {
    if es != [] {
      StepPreservesInv(app, es[0]);
      RunPreservesInv(Step(app, es[0]).app, es[1..]);
    }
  }

  /** The hero fights or has won only over a non-empty list whose every task
      is completed. */
  predicate Earned(app: App) {
    (app.hero == Fighting || app.hero == Victory) ==> app.tasks != [] && AllCompleted(app.tasks)
  }

  /** No event lets the hero fight or win over an empty or unfinished list:
      only a fetch changes the list, and a fetch of such a list sends the hero
      back to running. */
  lemma StepKeepsEarned(app: App, e: Event)
    requires Earned(app)
    ensures Earned(Step(app, e).app)
  {
    if e.Fetched? && e.result.Some? && Reachable(app, e) {
      FetchRunning(app, e.result.value);
    }
  }

  /** Along any run of events the hero fights or wins only over a non-empty,
      fully completed list. */
  lemma {:induction false} RunKeepsEarned(app: App, es: seq<Event>)
    requires Earned(app)
    ensures Earned(Run(app, es).0)
    decreases |es|
  {
    if es != [] {
      StepKeepsEarned(app, es[0]);
      RunKeepsEarned(Step(app, es[0]).app, es[1..]);
    }
  }

  /** In every state reachable from the initial one (where the hero starts
      out running) a fighting or victorious hero has earned it. */
  lemma ReachableEarned(es: seq<Event>)
    ensures var app := Run(Initial(), es).0;
      (app.hero == Fighting || app.hero == Victory) ==> app.tasks != [] && AllCompleted(app.tasks)
  {
    RunKeepsEarned(Initial(), es);
  }

  /** Victory is reached only from `Fighting`, by the timer, once the full
      dwell has passed since the fight began: no other event produces it. */
  lemma VictoryOnlyAfterDwell(app: App, e: Event)
    requires Inv(app) && app.hero != Victory
    requires Step(app, e).app.hero == Victory
    ensures app.hero == Fighting && e.TimePassed? && app.fightElapsed + e.ms >= FightDwellMs
  {
  }

  /** The fight clock: whatever event moves the hero into `Fighting` arms a
      fresh timer, and while the hero keeps fighting only elapsed time
      advances it. With `VictoryOnlyAfterDwell`, victory therefore needs the
      full dwell of elapsed time after the fight began. */
  lemma FightClock(app: App, e: Event)
    requires Inv(app)
    ensures app.hero != Fighting && Step(app, e).app.hero == Fighting ==> Step(app, e).app.fightElapsed == 0
    ensures app.hero == Fighting && Step(app, e).app.hero == Fighting && !e.TimePassed? ==>
      Step(app, e).app.fightElapsed == app.fightElapsed
  {
  }

  /** Giving up and continuing is a round trip: the game-over screen in
      between, no store request, and the game screen back as it was. */
  lemma GiveUpThenContinue(app: App)
    requires ScreenOf(app) == Main
    ensures var over := Step(app, GiveUpPressed);
      && ScreenOf(over.app) == GameOverScreen && over.request.None?
      && Step(over.app, ContinuePressed) == Outcome(app, None)
  {
  }

  /** Completing an unfinished task on the game screen: one update asks for
      `completed = true`, the mushroom appears, collecting it makes the hero
      run, and the list the store sends back scores exactly one task more. */
  lemma CompletingATask(app: App, i: nat)
    requires Inv(app) && ScreenOf(app) == Main
    requires i < |app.tasks| && !app.tasks[i].completed
    ensures var o := Step(app, ToggleTaskPressed(app.tasks[i]));
      var after := app.tasks[i := app.tasks[i].(completed := true)];
      && o.request == Some(Update(app.tasks[i].id, true))
      && o.app.hero == MushroomSpawn
      && Step(o.app, MushroomCollected).app.hero == Running
      && Fetch(o.app, Some(after)).score == app.score + PointsPerTask
  {
    CompleteOneMore(app.tasks, i);
  }

  /** `addTask` clears the input only after its insert has been awaited, so a
      second submit in between sends a second, identical insert, and the
      clearing then also drops any text typed in the meantime. */
  lemma SubmitTwiceBeforeSettling(app: App, typed: string)
    requires ScreenOf(app) == Main && !Text.AllSpace(app.draft)
    ensures var req := Insert(app.draft, app.user.value, CategoryName(app.category));
      var (end, sent) := Run(app, [SubmitDraft, SubmitDraft, EditDraft(typed), InsertSettled]);
      && sent == [req, req]
      && end.draft == [] && end.pendingInserts == app.pendingInserts + 1
  {
    var req := Insert(app.draft, app.user.value, CategoryName(app.category));
    var o1 := Step(app, SubmitDraft);
    var o2 := Step(o1.app, SubmitDraft);
    var o3 := Step(o2.app, EditDraft(typed));
    var o4 := Step(o3.app, InsertSettled);
    assert o1.request == Some(req) && o2.request == Some(req);
    var es := [SubmitDraft, SubmitDraft, EditDraft(typed), InsertSettled];
    assert es[3..][1..] == [] && es[2..][1..] == es[3..] && es[1..][1..] == es[2..] && es[1..] == es[1..];
    assert es[3..][0] == InsertSettled && es[2..][0] == EditDraft(typed) && es[1..][0] == SubmitDraft;
    assert o4.request.None? && o3.request.None?;
    assert Run(o4.app, []) == (o4.app, []);
    assert Run(o3.app, es[3..]).0 == o4.app && Run(o3.app, es[3..]).1 == [];
    assert Run(o2.app, es[2..]).0 == o4.app && Run(o2.app, es[2..]).1 == [];
    assert Run(o1.app, es[1..]).0 == o4.app && Run(o1.app, es[1..]).1 == [req];
    assert Run(app, es).0 == o4.app && Run(app, es).1 == [req, req];
  }

  /** The same fight driven by events: one millisecond short of the dwell the
      hero is still fighting, and the last millisecond wins, with no request
      sent and nothing but the hero changed. */
  lemma FightByEvents(user: string, t1: Task, t2: Task)
    requires t1.completed && t2.completed
    ensures var signedIn := Initial().(user := Some(user));
      var es := [Fetched(Some([t1, t2])), TimePassed(FightDwellMs - 1), TimePassed(1)];
      && Run(signedIn, es[..2]).0.hero == Fighting
      && Run(signedIn, es).0 == Fetch(signedIn, Some([t1, t2])).(hero := Victory, fightElapsed := 0)
      && Run(signedIn, es).1 == []
  {
    var signedIn := Initial().(user := Some(user));
    var es := [Fetched(Some([t1, t2])), TimePassed(FightDwellMs - 1), TimePassed(1)];
    assert AllCompleted([t1, t2]);
    var a1 := Step(signedIn, es[0]).app;
    var a2 := Step(a1, es[1]).app;
    var a3 := Step(a2, es[2]).app;
    assert a1.hero == Fighting && a1.fightElapsed == 0;
    assert a2.hero == Fighting && a2.fightElapsed == FightDwellMs - 1;
    assert a3 == a1.(hero := Victory, fightElapsed := 0);
    assert es[..2][1..][1..] == [] && es[..2][1..][0] == es[1] && es[..2][0] == es[0];
    assert Run(a2, []) == (a2, []);
    assert Run(a1, es[..2][1..]).0 == a2;
    assert Run(signedIn, es[..2]).0 == a2;
    assert es[1..][1..][1..] == [] && es[1..][1..][0] == es[2] && es[1..][0] == es[1];
    assert Run(a3, []) == (a3, []);
    assert Run(a2, es[1..][1..]).0 == a3 && Run(a2, es[1..][1..]).1 == [];
    assert Run(a1, es[1..]).0 == a3 && Run(a1, es[1..]).1 == [];
    assert Run(signedIn, es).0 == a3 && Run(signedIn, es).1 == [];
  }

  /** Two finished tasks: the fetch starts the fight, three seconds later the
      hero has won, and a later list with a new unfinished task sends it back
      to running. */
  lemma TwoDoneTasksWin(user: string, t1: Task, t2: Task, t3: Task)
    requires t1.completed && t2.completed && !t3.completed
    ensures var signedIn := Initial().(user := Some(user));
      var fought := Fetch(signedIn, Some([t1, t2]));
      var won := Elapse(fought, FightDwellMs);
      && fought.hero == Fighting && fought.score == 200
      && won.hero == Victory
      && Fetch(won, Some([t3, t1, t2])).hero == Running
  {
    assert CompletedCount([t1, t2]) == 2 by {
      assert [t1, t2][1..] == [t2];
    }
  }
}

=== FILE: hud.dfy ===
/**
 The heads-up display of `HUD.jsx`: score, coin count and lives rendered as
 zero-padded decimal counters, and the selected world shown as a level code.
 */
module Hud {
  import Text

  const ScoreWidth: nat := 6
  const CounterWidth: nat := 2

  /** The score: its digits zero-padded to six, never more zeros than that
      needs; its value is the score. */
  function ScoreText(score: nat): (r: string)
    ensures Text.IsZeroPadded(r, score, ScoreWidth)
    ensures |r| >= ScoreWidth && Text.AllDigits(r) && Text.Value(r) == score
    ensures score < 1000000 ==> |r| == ScoreWidth
  {
    ScoreLength(score);
    Text.ZeroPad(score, ScoreWidth)
  }

  /** Scores below a million fit the six-digit field without widening it. */
  lemma {:induction false} ScoreLength(score: nat)
    ensures score < 1000000 ==> |Text.Decimal(score)| <= ScoreWidth
  {
    if score >= 10 && score < 1000000 {
      DecimalShorter(score, 6);
    }
  }

  /** A number below `10^k` has at most `k` decimal digits. */
  lemma {:induction false} DecimalShorter(n: nat, k: nat)
    requires n < Pow10(k)
    ensures |Text.Decimal(n)| <= if k == 0 then 1 else k
    decreases k
  {
    if n >= 10 {
      DecimalShorter(n / 10, k - 1);
    }
  }

  function Pow10(k: nat): nat {
    if k == 0 then 1 else 10 * Pow10(k - 1)
  }

  /** The coins and the lives counters: the digits zero-padded to two, never
      more zeros than that needs. */
  function CounterText(n: nat): (r: string)
    ensures Text.IsZeroPadded(r, n, CounterWidth)
    ensures |r| >= CounterWidth && Text.AllDigits(r) && Text.Value(r) == n
    ensures n < 100 ==> |r| == CounterWidth
  {
    Text.ZeroPad(n, CounterWidth)
  }

  /** The level code shown for a world name: `Overworld` is 1-1, `Castle` is
      8-4 and any other name is 4-2. */
  function WorldCode(world: string): (code: string)
    ensures world == "Overworld" <==> code == "1-1"
    ensures world == "Castle" <==> code == "8-4"
    ensures world != "Overworld" && world != "Castle" <==> code == "4-2"
  {
    if world == "Overworld" then "1-1" else if world == "Castle" then "8-4" else "4-2"
  }

  datatype View = View(score: string, coins: string, world: string, lives: string)

  /** Everything the HUD prints for its four props. */
  function Render(score: nat, coins: nat, lives: nat, world: string): (v: View)
    ensures Text.AllDigits(v.score) && Text.Value(v.score) == score
    ensures Text.AllDigits(v.coins) && Text.Value(v.coins) == coins
    ensures Text.AllDigits(v.lives) && Text.Value(v.lives) == lives
    ensures v.world == WorldCode(world)
    ensures Text.IsZeroPadded(v.score, score, ScoreWidth)
    ensures Text.IsZeroPadded(v.coins, coins, CounterWidth)
    ensures Text.IsZeroPadded(v.lives, lives, CounterWidth)
  {
    View(ScoreText(score), CounterText(coins), WorldCode(world), CounterText(lives))
  }
}

=== FILE: optional.dfy ===
/** A value that may be absent: JavaScript's `null`/`undefined` results and
    failed lookups in the components are modelled with it. */
module Optional {

  datatype Option<+T> = None | Some(value: T) {

    /** The held value, or `default` when there is none (JavaScript `??`/`||` fallback). */
    function GetOr(default: T): T {
      match this
      case Some(v) => v
      case None => default
    }
  }
}

=== FILE: pomodoro.dfy ===
/**
 The Pomodoro countdown of `PomodoroTimer.jsx`: a mode, the seconds left and
 an active flag. The one-second interval and the zero-delay stop are modelled
 as the explicit events `Tick` and `Expire`; wall-clock time is not modelled.
 */
module Pomodoro {
  import opened Optional
  import Text
  import Sagas

  datatype Mode = Work | ShortBreak | LongBreak

  /** Length of each mode in minutes, as in the `TIMER_MODES` table: work is
      25, the short break 5 and the long break 15, so no two modes share a
      length. */
  function Minutes(m: Mode): (n: nat)
    ensures m == Work <==> n == 25
    ensures m == ShortBreak <==> n == 5
    ensures m == LongBreak <==> n == 15
  {
    match m
    case Work => 25
    case ShortBreak => 5
    case LongBreak => 15
  }

  /** Length of each mode in seconds: the value the counter is (re)set to. */
  function Nominal(m: Mode): nat {
    Minutes(m) * 60
  }

  /** The label of each mode in the `TIMER_MODES` table, one per mode. */
  function DefaultLabel(m: Mode): (name: string)
    ensures m == Work <==> name == "WORK"
    ensures m == ShortBreak <==> name == "SHORT BREAK"
    ensures m == LongBreak <==> name == "LONG BREAK"
  {
    match m
    case Work => "WORK"
    case ShortBreak => "SHORT BREAK"
    case LongBreak => "LONG BREAK"
  }

  datatype Timer = Timer(mode: Mode, remaining: nat, active: bool)

  /** The counter never exceeds the nominal length of the current mode. */
  predicate Valid(t: Timer) {
    t.remaining <= Nominal(t.mode)
  }

  /** The state on mount: work mode, 25 minutes left, not running. */
  function Initial(): (t: Timer)
    ensures t.mode == Work && t.remaining == 1500 && !t.active
    ensures Valid(t)
  {
    Timer(Work, Nominal(Work), false)
  }

  /** `switchMode(m)`: whatever the prior state, the mode becomes `m`, the
      counter is refilled to `m`'s length and the timer stops. */
  function SwitchMode(t: Timer, m: Mode): (r: Timer)
    ensures r.mode == m && !r.active
    ensures r.remaining == Minutes(m) * 60
    ensures Valid(r)
  {
    Timer(m, Nominal(m), false)
  }

  /** The reset button: mode kept, counter refilled, timer stopped. */
  function Reset(t: Timer): (r: Timer)
    ensures r.mode == t.mode && !r.active
    ensures r.remaining == Nominal(t.mode)
    ensures Valid(r)
  {
    SwitchMode(t, t.mode)
  }

  /** The start/pause button flips only the active flag. */
  function StartPause(t: Timer): (r: Timer)
    ensures r.active != t.active
    ensures r.mode == t.mode && r.remaining == t.remaining
  {
    t.(active := !t.active)
  }

  /** One firing of the one-second interval. The interval exists only while
      the timer is active with time left, so otherwise nothing happens. */
  function Tick(t: Timer): (r: Timer)
    ensures r.mode == t.mode && r.active == t.active
    ensures t.active && t.remaining > 0 ==> r.remaining + 1 == t.remaining
    ensures !(t.active && t.remaining > 0) ==> r == t
  {
    if t.active && t.remaining > 0 then t.(remaining := t.remaining - 1) else t
  }

  /** The zero-delay callback scheduled when an active timer sits at zero: it
      clears the active flag and changes nothing else (no move to another mode). */
  function Expire(t: Timer): (r: Timer)
    ensures r.mode == t.mode && r.remaining == t.remaining
    ensures r.active <==> t.active && t.remaining > 0
  {
    if t.active && t.remaining == 0 then t.(active := false) else t
  }

  datatype Event = SwitchTo(mode: Mode) | ResetPressed | StartPausePressed | TickEvent | ExpireEvent

  /** The timer's wiring: the mode buttons switch mode, the reset and
      start/pause buttons run their handlers, and the interval and the stop
      callback are the tick and the expiry. */
  function Step(t: Timer, e: Event): (r: Timer)
    ensures e.SwitchTo? ==> r == SwitchMode(t, e.mode)
    ensures e.ResetPressed? ==> r == Reset(t)
    ensures e.StartPausePressed? ==> r == StartPause(t)
    ensures e.TickEvent? ==> r == Tick(t)
    ensures e.ExpireEvent? ==> r == Expire(t)
  {
    match e
    case SwitchTo(m) => SwitchMode(t, m)
    case ResetPressed => Reset(t)
    case StartPausePressed => StartPause(t)
    case TickEvent => Tick(t)
    case ExpireEvent => Expire(t)
  }

  function Run(t: Timer, es: seq<Event>): Timer
    decreases |es|
  {
    if es == [] then t else Run(Step(t, es[0]), es[1..])
  }

  /** Every event keeps the counter within `0 ..= Nominal(mode)`. */
  lemma StepPreservesValid(t: Timer, e: Event)
    requires Valid(t)
    ensures Valid(Step(t, e))
  {
  }

  /** From a valid state, any sequence of events keeps the counter in range;
      in particular every state reachable from `Initial()` is valid. */
  lemma {:induction false} RunPreservesValid(t: Timer, es: seq<Event>)
    requires Valid(t)
    ensures Valid(Run(t, es))
    decreases |es|
  {
    if es != [] {
      StepPreservesValid(t, es[0]);
      RunPreservesValid(Step(t, es[0]), es[1..]);
    }
  }

  /** `n` consecutive interval firings. */
  function Ticks(t: Timer, n: nat): Timer
    decreases n
  {
    if n == 0 then t else Ticks(Tick(t), n - 1)
  }

  /** While running, `n` ticks take exactly `n` seconds off the counter as
      long as it does not go below zero. */
  lemma {:induction false} CountsDown(t: Timer, n: nat)
    requires t.active && n <= t.remaining
    ensures Ticks(t, n) == t.(remaining := t.remaining - n)
    decreases n
  {
    if n > 0 {
      CountsDown(Tick(t), n - 1);
    }
  }

  /** A full session: after switching to `m` and starting, `Nominal(m)` ticks
      bring the counter to zero, the stop callback clears the active flag, and
      the timer then rests in mode `m` at zero; further ticks change nothing. */
  lemma FullSession(t: Timer, m: Mode, extra: nat)
    ensures var started := StartPause(SwitchMode(t, m));
      && Expire(Ticks(started, Nominal(m))) == Timer(m, 0, false)
      && Ticks(Timer(m, 0, false), extra) == Timer(m, 0, false)
  {
    var started := StartPause(SwitchMode(t, m));
    CountsDown(started, Nominal(m));
    RestingIsStable(Timer(m, 0, false), extra);
  }

  /** Ticks do nothing to a stopped timer. */
  lemma {:induction false} RestingIsStable(t: Timer, n: nat)
    requires !t.active
    ensures Ticks(t, n) == t
    decreases n
  {
    if n > 0 {
      RestingIsStable(Tick(t), n - 1);
    }
  }

  /** Pressing start on a timer already at zero bounces back: no second is
      taken off and the stop callback makes it inactive again. */
  lemma StartAtZeroBounces(t: Timer)
    requires t.remaining == 0 && !t.active
    ensures Tick(StartPause(t)) == StartPause(t)
    ensures Expire(StartPause(t)) == t
  {
  }

  /** `formatTime(seconds)`: whole minutes and leftover seconds, each padded to
      two digits, separated by a colon. The seconds field is always two digits,
      so the colon is always the third character from the end. */
  function FormatTime(seconds: nat): (r: string)
    ensures |r| >= 5 && r[|r| - 3] == ':'
    ensures seconds < 6000 ==> |r| == 5
  {
    MinutesAndSeconds(seconds);
    Clock(Text.ZeroPad(seconds / 60, 2), Text.ZeroPad(seconds % 60, 2))
  }

  /** A minutes field and a seconds field joined by a colon. */
  function Clock(mm: string, ss: string): (r: string)
    ensures |r| == |mm| + 1 + |ss| && r[|mm|] == ':'
    ensures r[..|mm|] == mm && r[|mm| + 1..] == ss
  {
    mm + ":" + ss
  }

  /** Reads a `MM:SS` display back into seconds; `None` when the text is not
      of that shape or the seconds field is 60 or more. */
  function ParseTime(r: string): Option<nat> {
    if |r| >= 4 && r[|r| - 3] == ':' && Text.AllDigits(r[..|r| - 3]) && Text.AllDigits(r[|r| - 2..])
       && Text.Value(r[|r| - 2..]) < 60
    then Some(Text.Value(r[..|r| - 3]) * 60 + Text.Value(r[|r| - 2..]))
    else None
  }

  /** The display loses nothing: parsing it recovers the seconds. */
  lemma FormatTimeRoundTrip(seconds: nat)
    ensures ParseTime(FormatTime(seconds)) == Some(seconds)
  {
    var q, m := seconds / 60, seconds % 60;
    MinutesAndSeconds(seconds);
    ParseJoined(Text.ZeroPad(q, 2), Text.ZeroPad(m, 2), seconds);
    assert FormatTime(seconds) == Clock(Text.ZeroPad(q, 2), Text.ZeroPad(m, 2));
  }

  /** Parsing a minutes field, a colon and a two-digit seconds field below 60. */
  lemma ParseJoined(mm: string, ss: string, total: nat)
    requires Text.AllDigits(mm) && Text.AllDigits(ss)
    requires |mm| >= 1 && |ss| == 2 && Text.Value(ss) < 60
    requires Text.Value(mm) * 60 + Text.Value(ss) == total
    ensures ParseTime(Clock(mm, ss)) == Some(total)
  {
    var r := Clock(mm, ss);
    assert r[..|r| - 3] == mm && r[|r| - 2..] == ss && r[|r| - 3] == ':';
    assert ParseTime(r) == Some(Text.Value(mm) * 60 + Text.Value(ss));
  }

  lemma MinutesAndSeconds(seconds: nat)
    ensures seconds % 60 < 60
    ensures seconds < 6000 ==> seconds / 60 < 100
    ensures (seconds / 60) * 60 + seconds % 60 == seconds
  {
  }

  /** The theme label of each mode for a known saga (the `THEME_LABELS` table);
      none is empty. */
  function ThemeLabel(s: Sagas.Saga, m: Mode): (name: string)
    ensures name != []
  {
    match s
    case Mario => (match m case Work => "QUEST" case ShortBreak => "PAUSE" case LongBreak => "CASTLE")
    case Pacman => (match m case Work => "CHASE" case ShortBreak => "COFFEE" case LongBreak => "ARCADE")
    case Sonic => (match m case Work => "DASH" case ShortBreak => "REST" case LongBreak => "CHILL")
    case Pokemon => (match m case Work => "TRAIN" case ShortBreak => "HEAL" case LongBreak => "PC BOX")
    case Zelda => (match m case Work => "EXPLORE" case ShortBreak => "CAMP" case LongBreak => "SHRINE")
  }

  /** The `THEME_LABELS` table entry by entry, and the `TIMER_MODES` labels the
      timer falls back to, which no saga reuses for the same mode. */
  lemma ThemeLabelsTable()
    ensures ThemeLabel(Sagas.Mario, Work) == "QUEST" && ThemeLabel(Sagas.Mario, ShortBreak) == "PAUSE"
      && ThemeLabel(Sagas.Mario, LongBreak) == "CASTLE"
    ensures ThemeLabel(Sagas.Pacman, Work) == "CHASE" && ThemeLabel(Sagas.Pacman, ShortBreak) == "COFFEE"
      && ThemeLabel(Sagas.Pacman, LongBreak) == "ARCADE"
    ensures ThemeLabel(Sagas.Sonic, Work) == "DASH" && ThemeLabel(Sagas.Sonic, ShortBreak) == "REST"
      && ThemeLabel(Sagas.Sonic, LongBreak) == "CHILL"
    ensures ThemeLabel(Sagas.Pokemon, Work) == "TRAIN" && ThemeLabel(Sagas.Pokemon, ShortBreak) == "HEAL"
      && ThemeLabel(Sagas.Pokemon, LongBreak) == "PC BOX"
    ensures ThemeLabel(Sagas.Zelda, Work) == "EXPLORE" && ThemeLabel(Sagas.Zelda, ShortBreak) == "CAMP"
      && ThemeLabel(Sagas.Zelda, LongBreak) == "SHRINE"
    ensures forall s, m :: ThemeLabel(s, m) != DefaultLabel(m)
  {
  }

  /** The heading and mode-button label: the saga's theme label when the saga
      prop (defaulting to `mario`) names a known saga, otherwise the mode's
      default label. */
  function Label(saga: Option<string>, m: Mode): (r: string)
    ensures r != []
    ensures saga.None? ==> r == ThemeLabel(Sagas.Mario, m)
    ensures saga.Some? && Sagas.Lookup(saga.value).None? ==> r == DefaultLabel(m)
  {
    match Sagas.Lookup(Sagas.PropKey(saga))
    case Some(s) => ThemeLabel(s, m)
    case None => DefaultLabel(m)
  }

  /** Under any saga prop the three mode buttons carry three different labels,
      and a known saga's buttons carry its own theme labels. */
  lemma LabelsDistinguishModes(saga: Option<string>, m1: Mode, m2: Mode)
    requires m1 != m2
    ensures Label(saga, m1) != Label(saga, m2)
    ensures forall s :: saga == Some(Sagas.Key(s)) ==> Label(saga, m1) == ThemeLabel(s, m1)
  {
    forall s | saga == Some(Sagas.Key(s))
      ensures Label(saga, m1) == ThemeLabel(s, m1)
    {
      Sagas.LookupKey(s);
    }
  }
}

=== FILE: sagas.dfy ===
/**
 The game "sagas" the timer and the badge panel are themed by. Components
 receive a saga as a string prop defaulting to `mario`; only five keys are
 known to the lookup tables, every other string is an unknown saga.
 */
module Sagas {
  import opened Optional

  datatype Saga = Mario | Pacman | Sonic | Pokemon | Zelda

  /** The prop value naming each saga. */
  function Key(s: Saga): string {
    match s
    case Mario => "mario"
    case Pacman => "pacman"
    case Sonic => "sonic"
    case Pokemon => "pokemon"
    case Zelda => "zelda"
  }

  /** Looks a prop value up in the saga tables; `None` for an unknown key. */
  function Lookup(key: string): (r: Option<Saga>)
    ensures r.Some? ==> Key(r.value) == key
  {
    if key == "mario" then Some(Mario)
    else if key == "pacman" then Some(Pacman)
    else if key == "sonic" then Some(Sonic)
    else if key == "pokemon" then Some(Pokemon)
    else if key == "zelda" then Some(Zelda)
    else None
  }

  /** The key a component works with: the `saga` prop, or `mario` when the
      prop is not passed (the parameter default). */
  function PropKey(prop: Option<string>): (k: string)
    ensures prop.None? ==> k == Key(Mario)
    ensures prop.Some? ==> k == prop.value
  {
    prop.GetOr(Key(Mario))
  }

  /** Every saga is found under its own key, so `Lookup` and `Key` are inverse. */
  lemma LookupKey(s: Saga)
    ensures Lookup(Key(s)) == Some(s)
  {
  }
}

=== FILE: text.dfy ===
/**
 The string primitives the components rely on: `String.prototype.trim`,
 `toUpperCase`, `Number.prototype.toString` on non-negative integers and
 `padStart` with a one-character pad. Strings are sequences of characters and
 only the ASCII behaviour of `trim` and `toUpperCase` is modelled.
 */
module Text {

  /** The whitespace `trim` removes, restricted to ASCII: tab, line feed,
      vertical tab, form feed, carriage return and space. */
  predicate IsSpace(c: char) {
    c == ' ' || c == '\t' || c == '\n' || c == '\r' || c == '\U{000B}' || c == '\U{000C}'
  }

  predicate AllSpace(s: string) {
    forall i :: 0 <= i < |s| ==> IsSpace(s[i])
  }

  /** Neither end of `s` is whitespace. */
  predicate IsTrimmed(s: string) {
    s == [] || (!IsSpace(s[0]) && !IsSpace(s[|s| - 1]))
  }

  /** Index of the first non-whitespace character at or after `i`, or `|s|`
      when there is none. */
  function SkipSpace(s: string, i: nat): (k: nat)
    requires i <= |s|
    ensures i <= k <= |s|
    ensures forall j :: i <= j < k ==> IsSpace(s[j])
    ensures k < |s| ==> !IsSpace(s[k])
    decreases |s| - i
  {
    if i < |s| && IsSpace(s[i]) then SkipSpace(s, i + 1) else i
  }

  /** Walking back from `j`, the end of the text before the trailing
      whitespace, never going below `lo`. */
  function BackSpace(s: string, lo: nat, j: nat): (e: nat)
    requires lo <= j <= |s|
    ensures lo <= e <= j
    ensures forall x :: e <= x < j ==> IsSpace(s[x])
    ensures e > lo ==> !IsSpace(s[e - 1])
    decreases j
  {
    if j > lo && IsSpace(s[j - 1]) then BackSpace(s, lo, j - 1) else j
  }

  /** Where the trimmed text starts: the number of leading whitespace characters. */
  function TrimStart(s: string): nat {
    SkipSpace(s, 0)
  }

  /** Where the trimmed text ends (exclusive). */
  function TrimEnd(s: string): nat {
    BackSpace(s, TrimStart(s), |s|)
  }

  /** `s.trim()`: the infix of `s` between its leading and its trailing
      whitespace. It has no whitespace at either end, and it is empty exactly
      when `s` is all whitespace. */
  function Trim(s: string): (r: string)
    ensures TrimStart(s) <= TrimEnd(s) <= |s| && r == s[TrimStart(s)..TrimEnd(s)]
    ensures forall i :: 0 <= i < TrimStart(s) ==> IsSpace(s[i])
    ensures forall i :: TrimEnd(s) <= i < |s| ==> IsSpace(s[i])
    ensures IsTrimmed(r)
    ensures r == [] <==> AllSpace(s)
  {
    var k, e := TrimStart(s), TrimEnd(s);
    assert e == k <==> AllSpace(s) by {
      if e == k {
        assert k == |s|;
      } else {
        assert !IsSpace(s[k]);
      }
    }
    s[k..e]
  }

  /** A string with no whitespace at either end is its own trim. */
  lemma TrimOfTrimmed(s: string)
    requires IsTrimmed(s)
    ensures Trim(s) == s
  {
    if s != [] {
      assert TrimStart(s) == 0;
      assert TrimEnd(s) == |s|;
    }
  }

  /** Trimming twice is trimming once. */
  lemma TrimIdempotent(s: string)
    ensures Trim(Trim(s)) == Trim(s)
  {
    TrimOfTrimmed(Trim(s));
  }

  /** ASCII `toUpperCase` of one character: `a`..`z` become `A`..`Z`, every
      other character is unchanged. */
  function UpperChar(c: char): (u: char)
    ensures 'a' <= c <= 'z' ==> 'A' <= u <= 'Z' && u as int == c as int - 32
    ensures !('a' <= c <= 'z') ==> u == c
  {
    if 'a' <= c <= 'z' then (c as int - 32) as char else c
  }

  predicate IsLower(c: char) {
    'a' <= c <= 'z'
  }

  /** `u` is what `toUpperCase` makes of `c`: the capital of a lower-case
      letter (32 code points below it), any other character itself. */
  predicate UpperOf(c: char, u: char) {
    if IsLower(c) then 'A' <= u <= 'Z' && u as int == c as int - 32 else u == c
  }

  /** `s.toUpperCase()` over ASCII: the length is kept, no lower-case letter
      is left, each lower-case letter becomes the letter 32 code points below
      it (its capital), and every other character is left as it was. */
  function ToUpper(s: string): (r: string)
    ensures |r| == |s|
    ensures forall i :: 0 <= i < |r| ==> !IsLower(r[i])
    ensures forall i :: 0 <= i < |s| ==> UpperOf(s[i], r[i])
  {
    seq(|s|, i requires 0 <= i < |s| => UpperChar(s[i]))
  }

  /** Upper-casing never turns a letter into whitespace or back, so a trimmed
      string stays trimmed and the empty string stays empty. */
  lemma UpperKeepsTrimmed(s: string)
    requires IsTrimmed(s)
    ensures IsTrimmed(ToUpper(s))
    ensures ToUpper(s) == [] <==> s == []
  {
  }

  /** Upper-casing is idempotent. */
  lemma UpperIdempotent(s: string)
    ensures ToUpper(ToUpper(s)) == ToUpper(s)
  {
  }

  predicate IsDigit(c: char) {
    '0' <= c <= '9'
  }

  predicate AllDigits(s: string) {
    forall i :: 0 <= i < |s| ==> IsDigit(s[i])
  }

  function DigitChar(d: nat): (c: char)
    requires d < 10
    ensures IsDigit(c)
  {
    ('0' as int + d) as char
  }

  function DigitValue(c: char): (d: nat)
    requires IsDigit(c)
    ensures d < 10
  {
    c as int - '0' as int
  }

  /** `n.toString()` for a non-negative integer: its decimal digits, most
      significant first, with no leading zero except for `0` itself. */
  function Decimal(n: nat): (r: string)
    ensures |r| >= 1 && AllDigits(r)
    ensures |r| > 1 ==> r[0] != '0'
    ensures n < 10 <==> |r| == 1
    ensures n < 100 <==> |r| <= 2
    decreases n
  {
    if n < 10 then [DigitChar(n)] else Decimal(n / 10) + [DigitChar(n % 10)]
  }

  /** The number a string of decimal digits denotes (the inverse of `Decimal`). */
  function Value(s: string): nat
    requires AllDigits(s)
  {
    if s == [] then 0 else Value(s[..|s| - 1]) * 10 + DigitValue(s[|s| - 1])
  }

  /** Reading back the decimal representation gives the number. */
  lemma {:induction false} ValueOfDecimal(n: nat)
    ensures Value(Decimal(n)) == n
    decreases n
  {
    if n >= 10 {
      var r := Decimal(n);
      assert r[..|r| - 1] == Decimal(n / 10);
      ValueOfDecimal(n / 10);
    }
  }

  /** Distinct numbers have distinct decimal representations. */
  lemma DecimalInjective(m: nat, n: nat)
    requires Decimal(m) == Decimal(n)
    ensures m == n
  {
    ValueOfDecimal(m);
    ValueOfDecimal(n);
  }

  /** `k` copies of `c`. */
  function Repeat(c: char, k: nat): (r: string)
    ensures |r| == k
    ensures forall i :: 0 <= i < k ==> r[i] == c
  {
    seq(k, _ => c)
  }

  /** `s.padStart(width, fill)` with a one-character `fill`: the result is at
      least `width` long, ends with `s`, and everything before `s` is `fill`. */
  function PadStart(s: string, width: nat, fill: char): (r: string)
    ensures |r| == if |s| >= width then |s| else width
    ensures r[|r| - |s|..] == s
    ensures forall i :: 0 <= i < |r| - |s| ==> r[i] == fill
  {
    if |s| >= width then s else Repeat(fill, width - |s|) + s
  }

  /** Leading zeros do not change the value of a digit string. */
  lemma {:induction false} ValueIgnoresLeadingZeros(z: string, s: string)
    requires forall i :: 0 <= i < |z| ==> z[i] == '0'
    requires AllDigits(s)
    ensures AllDigits(z + s)
    ensures Value(z + s) == Value(s)
    decreases |z| + |s|
  {
    if s == [] {
      assert z + s == z;
      if z != [] {
        assert z[..|z| - 1] + [] == z[..|z| - 1];
        ValueIgnoresLeadingZeros(z[..|z| - 1], []);
      }
    } else {
      assert (z + s)[..|z + s| - 1] == z + s[..|s| - 1];
      ValueIgnoresLeadingZeros(z, s[..|s| - 1]);
    }
  }

  /** `r` is `n` printed in at least `width` digits: exactly `width` long
      unless the digits alone are longer, the plain digits at the end, and
      only zeros before them. */
  predicate IsZeroPadded(r: string, n: nat, width: nat) {
    && |r| == (if |Decimal(n)| >= width then |Decimal(n)| else width)
    && r[|r| - |Decimal(n)|..] == Decimal(n)
    && forall i :: 0 <= i < |r| - |Decimal(n)| ==> r[i] == '0'
  }

  /** `n.toString().padStart(width, '0')`: padding only prepends zeros, so the
      result is `width` long unless the digits alone are longer, ends with the
      plain digits, and still denotes `n`. */
  function ZeroPad(n: nat, width: nat): (r: string)
    ensures IsZeroPadded(r, n, width)
    ensures AllDigits(r) && Value(r) == n
  {
    PaddedDecimalValue(n, width);
    PadStart(Decimal(n), width, '0')
  }

  /** Zero-padding a number's decimal form keeps its value. */
  lemma PaddedDecimalValue(n: nat, width: nat)
    ensures AllDigits(PadStart(Decimal(n), width, '0'))
    ensures Value(PadStart(Decimal(n), width, '0')) == n
  {
    var d := Decimal(n);
    var r := PadStart(d, width, '0');
    ValueIgnoresLeadingZeros(r[..|r| - |d|], d);
    assert r == r[..|r| - |d|] + d;
    ValueOfDecimal(n);
  }
}
